=== FILE: README.md ===
# intel-gpu-exporter: a verified model of the decode-and-map loop

The exporter runs `intel_gpu_top -J`, reads its output line by line and republishes every
sample as Prometheus gauges. This project models the two pieces of logic in that loop.

- The **frame mapper** is `update(data)` with its nested `get_engine`. It maps one decoded
  JSON sample onto the registry. It writes nine scalar gauges and fifteen fixed engine gauges
  (busy/sema/wait for five engine kinds). It also writes one gauge labelled by
  `(name, measure)` for every engine measure except `unit`.
- The **frame decoder** is the buffer loop around `json.JSONDecoder.raw_decode`. Each line is
  appended to the buffer. One leading `[` is dropped, then leading whitespace. Complete JSON
  values are then peeled off the front until a decode fails.

Files (one module each, except where noted):

- `options.dfy`, module `Options`: an `Option` type usable with `:-`. `None` stands for a
  Python exception.
- `json.dfy`, module `JsonValues`: the decoded JSON value. Also `dict.get` with a default,
  the "must be a dict" rule behind `.get`/`.items()`, and the `float()` that `Gauge.set` applies.
- `metrics.dfy`, module `Metrics`: gauge identities, their exported names, the registry and
  its initial state.
- `mapper.dfy`, modules `Mapper` and `MapperSpec`. `Mapper` follows `update` step by step.
  `MapperSpec` states what `update` promises in terms of the sample's paths, and proves it.
- `framing.dfy`, module `Framing`: `lstrip`, bracket removal, the inner decode loop, and one
  outer-loop iteration per line.
- `exporter.dfy`, module `Exporter`: the main loop feeding decoded samples to `update` in order.

Modelling choices:

- The JSON decoder is a parameter `string -> Option<Decoded>`. The only assumption about it
  (`Sound`) is that a success consumes at least one character and at most the whole buffer.
  It is not assumed to skip leading whitespace.
- Numbers are exact `real`s. The defaults `0` and `0.0` both become `0.0`, because
  `Gauge.set` stores `float(value)`.
- An exception inside `update` is `None`. The main loop only catches `JSONDecodeError`, so such
  an exception ends the exporter.
- The loop calls `update` right after each decode. Decoding never reads the registry, so the
  model drains the buffer first and then applies the samples in order. The result is the same.
- Three details of the code that are easy to misread:
  - After a decoded value, only commas are stripped (`lstrip(",")`), not whitespace.
    Whitespace after the comma stays in the buffer until the next line is appended.
  - A leading `[` is dropped after every append whenever the buffer starts with one. It is
    not dropped only once per stream.
  - Every line `readline` returns before end of file ends in a newline, and `raw_decode`
    does not consume it. After a complete object the buffer therefore holds `"\n"` (after
    the closing line, `"]\n"`). That newline is stripped as leading whitespace once the next
    line is appended. The line-level lemmas are stated over such newline-terminated lines.

## Model

| member | source | states |
|---|---|---|
| `Metrics.AllGaugesComplete` | intel-gpu-exporter.py:9-44 | every fixed gauge identity is one of the 24 gauges declared at module level |
| `Metrics.EngineNameParts` | intel-gpu-exporter.py:21-39 | every engine gauge's name is `igpu_engines_`, its slug, `_0_` and its measure key, so the slug and the key can be read back from the name |
| `Metrics.NamesDistinct` | intel-gpu-exporter.py:9-44 | the 24 fixed gauges are registered under 24 different names, none of them the labelled gauge's `igpu_engines`, so creating them all at import does not clash |
| `Metrics.Initial` | intel-gpu-exporter.py:9-44 | on import, every fixed gauge exists and reads 0.0, and the labelled gauge has no label pair |
| `Mapper.Update` | intel-gpu-exporter.py:46-100 | `update(data)` itself; it has no contract of its own, its contract is carried by `UpdateSucceedsIff`, `UpdateScalarGauge`, `UpdateEngineGauge`, `UpdateLabels`, `UnitNeverPublished`, `UpdateGaugesIgnorePrevious` and `UpdateIdempotent` below |
| `Mapper.PublishEngines` | intel-gpu-exporter.py:54-58 | the engines loop; its contract is carried by `PublishEnginesIff` and `UpdateLabels` |
| `Mapper.ScalarReadings` | intel-gpu-exporter.py:51-100 | the nine scalar readings (lines 51-72 and 99-100); its contract is carried by `ScalarReadingsIff` and `UpdateScalarGauge` |
| `Mapper.KindReadings` | intel-gpu-exporter.py:74-77 | one engine kind's busy/sema/wait readings; its contract is carried by `KindReadingsDefined` and `UpdateEngineGauge` |
| `Mapper.EngineReadings` | intel-gpu-exporter.py:74-97 | the fifteen fixed engine readings; its contract is carried by `EngineReadingsDefined` and `UpdateEngineGauge` |
| `JsonValues.ToGauge` | intel-gpu-exporter.py:52-100 | the `float()` that every `set` applies (lines 52, 58, 61-72, 75-97 and 99-100); its contract is carried by `ScalarReadingMeaning`, `PublishEnginesIff` and `UpdateScalarGauge` (see Left out for strings) |
| `Mapper.GetEngine` | intel-gpu-exporter.py:47-49 | the bare engine name wins even when `name + "/0"` is also present; otherwise the alias entry is used; otherwise `{}`; it raises when "engines" is present but not a dict |
| `MapperSpec.ScalarReadingMeaning` | intel-gpu-exporter.py:51-52 | one scalar gauge's `set(section.get(leaf, 0))` succeeds iff the section is absent or a dict whose leaf is absent or numeric; the value is the leaf's, or 0 |
| `MapperSpec.ScalarReadingsIff` | intel-gpu-exporter.py:51-100 | the nine scalar `set` calls (lines 52, 61-72 and 99-100) all succeed iff every scalar path conforms (both directions) |
| `MapperSpec.PublishEnginesIff` | intel-gpu-exporter.py:54-58 | the engines loop raises iff "engines" is a non-dict, an engine's stats is a non-dict, or a non-`unit` value is not convertible by `float()` as modelled by `ToGauge` (numeric strings and out-of-range integers: see Left out) |
| `MapperSpec.ResolvedConforms` | intel-gpu-exporter.py:47-58 | when every engine entry can be iterated and converted, `get_engine` returns one of those entries or `{}`, so whatever it returns conforms as well |
| `MapperSpec.KindReadingsDefined` | intel-gpu-exporter.py:74-77 | when the engines entry conforms, the resolved engine of a kind is a dict and its busy/sema/wait readings exist |
| `MapperSpec.EngineReadingsDefined` | intel-gpu-exporter.py:74-97 | when the engines entry conforms, all fifteen fixed engine readings exist |
| `MapperSpec.UpdateSucceedsIff` | intel-gpu-exporter.py:46-100 | `update` raises exactly on samples that are not a dict or have a non-conforming scalar path or engines entry, with `float()` as modelled by `ToGauge` (see Left out) |
| `MapperSpec.UpdateScalarGauge` | intel-gpu-exporter.py:51-100 | after `update` each scalar gauge holds the value at its section/leaf path, or 0 when the section or the leaf is absent; no other part of the sample affects it |
| `MapperSpec.UpdateEngineGauge` | intel-gpu-exporter.py:74-97 | after `update` each busy/sema/wait gauge holds the alias-resolved engine's measure, or 0.0 when it lacks that key |
| `MapperSpec.UpdateLabels` | intel-gpu-exporter.py:54-58 | a label pair is present after `update` iff it was present before or is a non-`unit` measure of a sample engine; sample pairs get the sample's value; other pairs keep theirs, so the label set only grows |
| `MapperSpec.UnitNeverPublished` | intel-gpu-exporter.py:56-57 | no `(name, "unit")` pair is ever added or changed by `update` |
| `MapperSpec.UpdateGaugesIgnorePrevious` | intel-gpu-exporter.py:46-100 | every fixed gauge is overwritten, so the fixed gauges after `update` depend on the sample alone, and all of them exist |
| `MapperSpec.UpdateIdempotent` | intel-gpu-exporter.py:46-100 | applying the same sample a second time changes nothing |
| `MapperSpec.AliasedRenderUpdate` | intel-gpu-exporter.py:74-77 | on a sample whose render engine is keyed `Render/3D/0`, the render gauges read 12.5 and 3.1, absent sections read 0, and the labelled gauge has busy and wait under `Render/3D/0` but no `unit` |
| `Framing.StripLeading` | intel-gpu-exporter.py:138-144 | `lstrip(chars)` removes exactly the longest prefix of characters in the set, and keeps a suffix |
| `Framing.Prepare` | intel-gpu-exporter.py:133-138 | after an append, at most one leading `[` is removed, then all leading whitespace; the result is a suffix that starts with a non-space character or is empty |
| `Framing.Drain` | intel-gpu-exporter.py:140-146 | the inner loop keeps a suffix of the buffer and stops only on an empty buffer or a failed decode; a failed decode leaves the buffer as it was; a successful decode emits that value first; each emitted value consumed at least one character |
| `Framing.StripRun` | intel-gpu-exporter.py:144 | when the first k characters are stripped ones and the next one is not (or the text ends), `lstrip` removes exactly those k characters |
| `Framing.DrainStep` | intel-gpu-exporter.py:140-144 | when a decode ends at `end` and is followed by exactly k commas, the loop emits that value first and then, in stream order, everything it emits from the text after the commas, and leaves what that leaves |
| `Framing.Feed` | intel-gpu-exporter.py:130-146 | an empty line changes nothing; otherwise the leftover is a suffix of buffer + line; if nothing is emitted, all text except one `[` and leading whitespace is kept |
| `Framing.DrainSettles` | intel-gpu-exporter.py:140-146 | draining the leftover again emits nothing and keeps it |
| `Framing.PrepareKeeps` | intel-gpu-exporter.py:135-138 | text starting with neither `[` nor whitespace is not changed by the preparation |
| `Framing.DrainWhole` | intel-gpu-exporter.py:140-144 | a value spanning the whole buffer is emitted alone and empties the buffer |
| `Framing.DrainTwo` | intel-gpu-exporter.py:140-146 | two values with one comma between them are emitted in stream order; when the second is followed by no comma and nothing decodes after it, that remainder stays in the buffer |
| `Framing.FeedStop` | intel-gpu-exporter.py:133-146 | a line after which the buffer holds one value followed by no comma and then text that does not decode emits that value alone and keeps the text |
| `Framing.WholeObjectInOneLine` | intel-gpu-exporter.py:130-146 | a `readline` line `obj + "\n"` holding one complete object yields exactly that object and leaves `"\n"` in the buffer |
| `Framing.NewlineLeftoverDropped` | intel-gpu-exporter.py:133-138 | the `"\n"` left after a value is dropped as leading whitespace once the next line (not starting with `[`) is appended, so it makes no difference |
| `Framing.ObjectSplitAcrossLines` | intel-gpu-exporter.py:130-146 | an object split over two newline-terminated lines yields nothing after the first, keeps the first line with its newline, and yields the object after the second, leaving `"\n"` |
| `Framing.TwoObjectsInOrder` | intel-gpu-exporter.py:130-146 | two comma-separated objects in one newline-terminated line are emitted both, in stream order, and `"\n"` is left |
| `Framing.OpeningLine` | intel-gpu-exporter.py:133-146 | the first line `[` plus the start of an object emits nothing and keeps the start, without the bracket |
| `Framing.DrainStop` | intel-gpu-exporter.py:140-146 | a value followed by no comma, after which nothing decodes, is emitted alone and everything after it stays, because only commas are stripped after a value |
| `Framing.ClosingLine` | intel-gpu-exporter.py:130-146 | the `readline` line completing a buffered object and closing the array, `…}]\n`, emits the object and leaves `"]\n"` in the buffer |
| `Framing.BracketedStream` | intel-gpu-exporter.py:130-146 | over a two-line bracketed stream `[{…\n` / `…}]\n`, the first line emits nothing and keeps its object text with the newline; the second emits the one object and leaves `"]\n"` |
| `Framing.BracketLineLeavesNothing` | intel-gpu-exporter.py:130-140 | a line of `[` followed only by whitespace, such as `"[\n"`, is consumed and leaves an empty buffer |
| `Exporter.Publish` | intel-gpu-exporter.py:140-146 | `update` applied to each decoded value in order; its contract is carried by `PublishSucceedsIff`, `PublishLastWins`, `PublishKeepsLabels` and `PublishSingle` |
| `Exporter.OnLine` | intel-gpu-exporter.py:129-146 | one outer-loop iteration; its contract is carried by `OnLineMeaning` and `IncompleteLineKeepsText` |
| `Exporter.OnLineMeaning` | intel-gpu-exporter.py:129-146 | one line raises iff some value it completes does not conform; otherwise the buffer is the decoder's leftover, the label set only grows, every fixed gauge stays present, and the fixed gauges are those of the last completed value (unchanged if none) |
| `Exporter.Run` | intel-gpu-exporter.py:129-146 | the outer loop over the lines read; its contract is carried by `RunAppend`, `RunTwoLines`, `BracketedRun` and `FirstSample` |
| `Exporter.PublishSucceedsIff` | intel-gpu-exporter.py:140-146 | feeding a batch of samples to `update` raises iff one of them does not conform |
| `Exporter.PublishLastWins` | intel-gpu-exporter.py:143 | after a batch of samples, the fixed gauges are those of the last sample |
| `Exporter.PublishKeepsLabels` | intel-gpu-exporter.py:58 | across a batch the labelled gauge's label set only grows, and every fixed gauge stays present |
| `Exporter.IncompleteLineKeepsText` | intel-gpu-exporter.py:133-146 | a line after which nothing decodes leaves the registry alone and the prepared text in the buffer |
| `Exporter.PublishSingle` | intel-gpu-exporter.py:142-143 | publishing one decoded value is one `update` |
| `Exporter.OpeningRun` | intel-gpu-exporter.py:133-146 | with an empty buffer, the opening line `[` plus the start of an object leaves the registry as it is |
| `Exporter.ClosingRun` | intel-gpu-exporter.py:130-146 | the `readline` line completing the buffered object and closing the array publishes the object and keeps `"]\n"` |
| `Exporter.RunTwoLines` | intel-gpu-exporter.py:129-146 | two lines run as the first followed by the second |
| `Exporter.BracketedRun` | intel-gpu-exporter.py:129-146 | with an empty buffer, a two-line bracketed stream of newline-terminated lines leave the registry alone after the first and set it exactly as one `update` on the object after the second, or end the exporter if that raises; `"]\n"` is left |
| `Exporter.FirstSample` | intel-gpu-exporter.py:126-146 | the same from start-up (`buffer = ""` and the gauges as created): the first sample of such a stream sets the fresh gauges |
| `Exporter.RunAppend` | intel-gpu-exporter.py:129-146 | processing two batches of lines one after the other is processing their concatenation |

## Left out

- Argument parsing, logging setup and `start_http_server` (lines 103-112) are library bootstrap, not logic.
- The Prometheus text exposition, the help strings and scraping concurrency are left out. The registry is plain maps; gauge internals and thread safety belong to `prometheus_client`.
- Starting the subprocess, `poll`, `readline`, `kill` and reading stderr on exit (lines 114-132, 148-151) are process I/O. The loop is modelled over a given finite sequence of lines. Process exit is not modelled.
- The JSON grammar of `raw_decode` belongs to a foreign library. It is the `Decoder` parameter, constrained only by `Sound`. So is the handling of duplicate keys, NaN and Infinity.
- IEEE floating point is not modelled. Values are exact reals passed through unchanged, so rounding is not modelled, nor the overflow of very large integers (see the `JsonValues.ToGauge` lines below).
- JsonValues.ToGauge: a string value is treated as raising in `float()`. Python's `float()` accepts numeric strings such as `"12.5"`, and the model does not parse strings. This shapes `ScalarReadingMeaning`, `PublishEnginesIff`, `UpdateLabels` and `UpdateSucceedsIff`: a numeric string is counted as a failure there.
- MapperSpec.UpdateSucceedsIff: because of the `float()` rule above, a sample with a numeric string where a number belongs is counted as raising.
- JsonValues.ToGauge: every decoded number counts as convertible. Python's `json` decodes an integer literal to an unbounded `int`, and `float()` raises OverflowError on one beyond the double range (such as 10**309). The model keeps numbers as exact reals and does not distinguish integers, so that raise is not modelled. This shapes `ScalarReadingMeaning`, `PublishEnginesIff`, `UpdateLabels` and `UpdateSucceedsIff`: such an integer is counted as a success there.
- MapperSpec.UpdateSucceedsIff: because of the overflow rule above, a sample holding an integer beyond the double range where a number belongs is counted as conforming, though the source raises OverflowError on it, which escapes the `JSONDecodeError` handler and ends the exporter.
- MapperSpec.UpdateSucceedsIff: the three exception types (AttributeError, TypeError, ValueError) are merged into one failure. The gauges written before the exception are not modelled, because the exception ends the exporter.
- The iteration order of the engines loop is not modelled. Each pair is written at most once, so the order does not change the resulting labelled gauge.

=== FILE: exporter.dfy ===
/** The exporter's main loop: every line read from the tool goes through the frame decoder,
    and every value it emits goes through `update`, in order. */
module Exporter {
  import opened Options
  import opened JsonValues
  import opened Metrics
  import opened Mapper
  import opened MapperSpec
  import opened Framing

  /** The decode buffer and the registry, the two pieces of state the loop keeps. */
  datatype State = State(buffer: string, registry: Registry)

  /** `buffer = ""` with the gauges freshly created. */
  function Start(): State {
    State([], Initial())
  }

  /** `update(obj)` for each emitted value in turn; `None` once one of them raises,
      which ends the exporter. */
  function Publish(samples: seq<Json>, reg: Registry): Option<Registry>
    decreases |samples|
  {
    if samples == [] then
      Some(reg)
    else
      var next :- Update(samples[0], reg);
      Publish(samples[1..], next)
  }

  /** One line from `process.stdout.readline()`. The loop body calls `update` right after
      each successful decode; since decoding never looks at the registry, that is the same
      as draining first and then updating in order. */
  function OnLine(decode: Decoder, s: State, line: string): Option<State>
    requires Sound(decode)
  {
    var round := Feed(decode, s.buffer, line);
    var reg :- Publish(round.samples, s.registry);
    Some(State(round.rest, reg))
  }

  /** The loop over a sequence of lines, stopping when an `update` raises. */
  function Run(decode: Decoder, s: State, lines: seq<string>): Option<State>
    requires Sound(decode)
    decreases |lines|
  {
    if lines == [] then
      Some(s)
    else
      var next :- OnLine(decode, s, lines[0]);
      Run(decode, next, lines[1..])
  }

  /** Publishing raises exactly when one of the samples does not conform. */
  lemma {:induction false} PublishSucceedsIff(samples: seq<Json>, reg: Registry)
    ensures Publish(samples, reg).Some? <==> forall i | 0 <= i < |samples| :: Conforms(samples[i])
    decreases |samples|
  {
    if samples != [] {
      var tail := samples[1..];
      assert forall i | 1 <= i < |samples| :: samples[i] == tail[i - 1];
      UpdateSucceedsIff(samples[0], reg);
      match Update(samples[0], reg)
      case None =>
        assert Publish(samples, reg).None?;
      case Some(next) =>
        assert Publish(samples, reg) == Publish(tail, next);
        PublishSucceedsIff(tail, next);
    }
  }

  /** Last write wins: after a run of samples the fixed gauges are those of the last one. */
  lemma {:induction false} PublishLastWins(samples: seq<Json>, reg: Registry)
    requires samples != []
    requires Publish(samples, reg).Some?
    ensures Update(samples[|samples| - 1], reg).Some?
    ensures Publish(samples, reg).value.gauges == Update(samples[|samples| - 1], reg).value.gauges
    decreases |samples|, 1
  {
    if |samples| == 1 {
      var next := Update(samples[0], reg).value;
      assert Publish(samples, reg) == Publish(samples[1..], next);
      assert samples[1..] == [];
    } else {
      PublishLastWinsStep(samples, reg);
    }
  }

  lemma {:induction false} PublishLastWinsStep(samples: seq<Json>, reg: Registry)
    requires |samples| > 1
    requires Publish(samples, reg).Some?
    ensures Update(samples[|samples| - 1], reg).Some?
    ensures Publish(samples, reg).value.gauges == Update(samples[|samples| - 1], reg).value.gauges
    decreases |samples|, 0
  {
    var next := Update(samples[0], reg).value;
    assert Publish(samples, reg) == Publish(samples[1..], next);
    var last := samples[|samples| - 1];
    PublishLastWins(samples[1..], next);
    assert samples[1..][|samples[1..]| - 1] == last;
    UpdateGaugesIgnorePrevious(last, next, reg);
  }

  /** The labelled gauge only grows, and every fixed gauge stays present. */
  lemma {:induction false} PublishKeepsLabels(samples: seq<Json>, reg: Registry)
    requires Publish(samples, reg).Some?
    ensures reg.labelled.Keys <= Publish(samples, reg).value.labelled.Keys
    ensures Valid(reg) ==> Valid(Publish(samples, reg).value)
    decreases |samples|
  {
    if samples != [] {
      var next := Update(samples[0], reg).value;
      UpdateShape(samples[0], reg, next);
      UpdateGaugesIgnorePrevious(samples[0], reg, reg);
      PublishKeepsLabels(samples[1..], next);
    }
  }

  /** What one line does: it raises exactly when some value it completes does not conform;
      otherwise the buffer is what the decoder left, the label set only grows, every fixed
      gauge stays present, and the fixed gauges are those of the last value completed, or
      unchanged when the line completes none. */
  lemma OnLineMeaning(decode: Decoder, s: State, line: string)
    requires Sound(decode)
    ensures var samples := Feed(decode, s.buffer, line).samples;
      OnLine(decode, s, line).Some? <==> forall i | 0 <= i < |samples| :: Conforms(samples[i])
    ensures OnLine(decode, s, line).Some? ==>
      var next := OnLine(decode, s, line).value;
      var round := Feed(decode, s.buffer, line);
      && next.buffer == round.rest
      && s.registry.labelled.Keys <= next.registry.labelled.Keys
      && (Valid(s.registry) ==> Valid(next.registry))
      && (round.samples == [] ==> next.registry == s.registry)
      && (round.samples != [] ==>
            && Update(round.samples[|round.samples| - 1], s.registry).Some?
            && next.registry.gauges == Update(round.samples[|round.samples| - 1], s.registry).value.gauges)
  {
    var round := Feed(decode, s.buffer, line);
    PublishSucceedsIff(round.samples, s.registry);
    if Publish(round.samples, s.registry).Some? {
      PublishKeepsLabels(round.samples, s.registry);
      if round.samples != [] {
        PublishLastWins(round.samples, s.registry);
      }
    }
  }

  /** A line after which nothing decodes leaves the registry untouched and keeps all of the
      buffered text except one leading bracket and leading whitespace. */
  lemma IncompleteLineKeepsText(decode: Decoder, s: State, line: string)
    requires Sound(decode)
    requires line != []
    requires Feed(decode, s.buffer, line).samples == []
    ensures OnLine(decode, s, line) == Some(State(Prepare(s.buffer + line), s.registry))
  {
  }

  /** Publishing one value is one `update`. */
  lemma PublishSingle(obj: Json, reg: Registry)
    ensures Publish([obj], reg) == Update(obj, reg)
  {
    assert [obj][1..] == [];
  }

  /** An opening line, `[` and the start of an object, leaves the registry as it is. */
  lemma OpeningRun(decode: Decoder, s: State, first: string)
    requires Sound(decode)
    requires s.buffer == []
    requires first != [] && first[0] != '[' && !IsSpace(first[0])
    requires decode(first).None?
    ensures Run(decode, s, ["[" + first]) == Some(State(first, s.registry))
  {
    OpeningLine(decode, first);
    assert OnLine(decode, s, "[" + first) == Some(State(first, s.registry));
    assert ["[" + first][1..] == [];
  }

  /** A single line runs as one `OnLine`: the round's values are published, and the
      round's leftover becomes the buffer. */
  lemma RunOneLine(decode: Decoder, s: State, line: string, round: Round)
    requires Sound(decode)
    requires Feed(decode, s.buffer, line) == round
    ensures Run(decode, s, [line]) ==
      match Publish(round.samples, s.registry)
      case None => None
      case Some(reg) => Some(State(round.rest, reg))
  {
    assert [line][1..] == [];
    match Publish(round.samples, s.registry)
    case None =>
    case Some(reg) =>
      assert Run(decode, State(round.rest, reg), []) == Some(State(round.rest, reg));
  }

  /** The `readline` line completing a buffered value and closing the array publishes that
      value and keeps `]` and the newline. */
  lemma ClosingRun(decode: Decoder, s: State, last: string, obj: Json)
    requires Sound(decode)
    requires s.buffer != [] && s.buffer[0] != '[' && !IsSpace(s.buffer[0])
    requires last != [] && last[|last| - 1] == ']'
    requires decode(s.buffer + last + "\n") == Some(Decoded(obj, |s.buffer| + |last| - 1))
    requires decode("]\n").None?
    ensures Run(decode, s, [last + "\n"]) ==
      match Publish([obj], s.registry)
      case None => None
      case Some(reg) => Some(State("]\n", reg))
  {
    ClosingLine(decode, s.buffer, last, obj);
    RunOneLine(decode, s, last + "\n", Round("]\n", [obj]));
  }

  /** Two lines run as the first followed by the second. */
  lemma RunTwoLines(decode: Decoder, s: State, a: string, b: string, mid: State)
    requires Sound(decode)
    requires Run(decode, s, [a]) == Some(mid)
    ensures Run(decode, s, [a, b]) == Run(decode, mid, [b])
  {
    RunAppend(decode, s, [a], [b]);
    assert [a] + [b] == [a, b];
  }

  /** With an empty buffer, the opening `readline` line of a two-line bracketed stream, `[` plus the start of an
      object, leaves the registry as it is and the start with its newline in the buffer; the
      line completing the object and closing the array then sets the registry exactly as one
      `update` does, or ends the exporter if that raises, and leaves `]` and its newline. */
  lemma BracketedRun(decode: Decoder, reg: Registry, first: string, last: string, obj: Json)
    requires Sound(decode)
    requires first != [] && first[0] != '[' && !IsSpace(first[0])
    requires decode(first + "\n").None?
    requires last != [] && last[|last| - 1] == ']'
    requires decode(first + "\n" + last + "\n") == Some(Decoded(obj, |first| + |last|))
    requires decode("]\n").None?
    ensures Run(decode, State([], reg), ["[" + (first + "\n")]) == Some(State(first + "\n", reg))
    ensures Run(decode, State([], reg), ["[" + (first + "\n"), last + "\n"]) ==
      match Update(obj, reg)
      case None => None
      case Some(next) => Some(State("]\n", next))
  {
    var s := State([], reg);
    var line := first + "\n";
    var mid := State(line, reg);
    assert Run(decode, mid, [last + "\n"]) ==
      match Update(obj, reg)
      case None => None
      case Some(next) => Some(State("]\n", next))
    by {
      assert line[0] == first[0];
      ClosingRun(decode, mid, last, obj);
      PublishSingle(obj, reg);
    }
    assert Run(decode, s, ["[" + line]) == Some(mid) by {
      assert line[0] == first[0];
      OpeningRun(decode, s, line);
    }
    RunTwoLines(decode, s, "[" + line, last + "\n", mid);
  }

  /** The same from start-up: the first sample of a two-line bracketed stream sets the fresh
      gauges. */
  lemma FirstSample(decode: Decoder, first: string, last: string, obj: Json)
    requires Sound(decode)
    requires first != [] && first[0] != '[' && !IsSpace(first[0])
    requires decode(first + "\n").None?
    requires last != [] && last[|last| - 1] == ']'
    requires decode(first + "\n" + last + "\n") == Some(Decoded(obj, |first| + |last|))
    requires decode("]\n").None?
    ensures Run(decode, Start(), ["[" + (first + "\n")]) == Some(State(first + "\n", Initial()))
    ensures Run(decode, Start(), ["[" + (first + "\n"), last + "\n"]) ==
      match Update(obj, Initial())
      case None => None
      case Some(reg) => Some(State("]\n", reg))
  {
    BracketedRun(decode, Initial(), first, last, obj);
  }

  /** Running two batches of lines is running their concatenation. */
  lemma {:induction false} RunAppend(decode: Decoder, s: State, xs: seq<string>, ys: seq<string>)
    requires Sound(decode)
    ensures Run(decode, s, xs + ys) ==
      match Run(decode, s, xs)
      case None => None
      case Some(mid) => Run(decode, mid, ys)
    decreases |xs|
  {
    if xs == [] {
      assert xs + ys == ys;
    } else {
      assert (xs + ys)[0] == xs[0];
      assert (xs + ys)[1..] == xs[1..] + ys;
      match OnLine(decode, s, xs[0])
      case None =>
      case Some(next) =>
        RunAppend(decode, next, xs[1..], ys);
    }
  }
}

=== FILE: framing.dfy ===
/** The frame decoder: the text buffer fed by the tool's output lines, from which complete
    JSON values are peeled off the front with `json.JSONDecoder.raw_decode`. */
module Framing {
  import opened Options
  import opened JsonValues

  /** Python's `str.isspace`, the set `str.lstrip()` removes. */
  predicate IsSpace(c: char) {
    || c == ' '
    || '\t' <= c <= '\r'
    || '\U{1C}' <= c <= '\U{1F}'
    || c == '\U{85}'
    || c == '\U{A0}'
    || c == '\U{1680}'
    || '\U{2000}' <= c <= '\U{200A}'
    || c == '\U{2028}'
    || c == '\U{2029}'
    || c == '\U{202F}'
    || c == '\U{205F}'
    || c == '\U{3000}'
  }

  predicate IsComma(c: char) {
    c == ','
  }

  predicate IsSuffix(s: string, t: string) {
    |s| <= |t| && forall i | 0 <= i < |s| :: s[i] == t[|t| - |s| + i]
  }

  /** `s.lstrip(chars)`: the longest prefix of characters in the set is removed. */
  function StripLeading(s: string, strip: char -> bool): (r: string)
    ensures IsSuffix(r, s)
    ensures forall i | 0 <= i < |s| - |r| :: strip(s[i])
    ensures r == [] || !strip(r[0])
    decreases |s|
  {
    if s != [] && strip(s[0]) then
      var r := StripLeading(s[1..], strip);
      StripOne(s, r, strip);
      r
    else
      s
  }

  /** One step of `lstrip`: what is stripped from the tail, plus the stripped first
      character, is what is stripped from the whole. */
  lemma StripOne(s: string, r: string, strip: char -> bool)
    requires s != [] && strip(s[0])
    requires IsSuffix(r, s[1..])
    requires forall i | 0 <= i < |s| - 1 - |r| :: strip(s[1..][i])
    ensures IsSuffix(r, s)
    ensures forall i | 0 <= i < |s| - |r| :: strip(s[i])
  {
    forall i | 0 <= i < |r| ensures r[i] == s[|s| - |r| + i] {
      assert r[i] == s[1..][|s| - 1 - |r| + i];
    }
    forall i | 0 <= i < |s| - |r| ensures strip(s[i]) {
      if i > 0 {
        assert s[i] == s[1..][i - 1];
      }
    }
  }

  /** The buffer after a line is appended: `if buffer.startswith("["): buffer = buffer[1:]`
      then `buffer = buffer.lstrip()`. At most one bracket goes, then all leading whitespace. */
  function Prepare(text: string): (r: string)
    ensures IsSuffix(r, text)
    ensures var skip := if text != [] && text[0] == '[' then 1 else 0;
      && |r| <= |text| - skip
      && forall i | skip <= i < |text| - |r| :: IsSpace(text[i])
    ensures r == [] || !IsSpace(r[0])
  {
    var skip := if text != [] && text[0] == '[' then 1 else 0;
    var unbracketed := text[skip..];
    var r := StripLeading(unbracketed, IsSpace);
    assert IsSuffix(unbracketed, text);
    SuffixOfSuffix(r, unbracketed, text);
    assert forall i | skip <= i < |text| - |r| :: text[i] == unbracketed[i - skip];
    r
  }

  /** A successful `raw_decode`: the value and the index just past it. */
  datatype Decoded = Decoded(value: Json, end: nat)

  /** `decoder.raw_decode(buffer)`, `None` when it raises `JSONDecodeError`. The JSON grammar
      is not modelled; the decoder is a parameter. */
  type Decoder = string -> Option<Decoded>

  /** What the model relies on about `raw_decode`: a success consumes at least one
      character and no more than the buffer holds. */
  ghost predicate Sound(decode: Decoder) {
    forall s :: decode(s).Some? ==> 0 < decode(s).value.end <= |s|
  }

  /** The buffer left over, and the values emitted to `update` in order. */
  datatype Round = Round(rest: string, samples: seq<Json>)

  /** The inner loop `while buffer: ...`: decode from the front; on success emit the value
      and continue on `buffer[idx:].lstrip(",")`; on failure stop with the buffer untouched. */
  function Drain(decode: Decoder, buffer: string): (r: Round)
    requires Sound(decode)
    ensures IsSuffix(r.rest, buffer)
    ensures |r.samples| <= |buffer| - |r.rest|
    ensures r.rest == [] || decode(r.rest).None?
    ensures buffer != [] && decode(buffer).None? ==> r == Round(buffer, [])
    ensures buffer != [] && decode(buffer).Some? ==>
      r.samples != [] && r.samples[0] == decode(buffer).value.value
    decreases |buffer|
  {
    if buffer == [] then
      Round(buffer, [])
    else
      var d := decode(buffer);
      if d.None? then
        Round(buffer, [])
      else
        assert 0 < d.value.end <= |buffer|;
        var tail := StripLeading(buffer[d.value.end..], IsComma);
        SuffixOfSuffix(tail, buffer[d.value.end..], buffer);
        var next := Drain(decode, tail);
        SuffixOfSuffix(next.rest, tail, buffer);
        Round(next.rest, [d.value.value] + next.samples)
  }

  lemma SuffixOfSuffix(s: string, t: string, u: string)
    requires IsSuffix(s, t) && IsSuffix(t, u)
    ensures IsSuffix(s, u)
  {
    forall i | 0 <= i < |s| ensures s[i] == u[|u| - |s| + i] {
      assert s[i] == t[|t| - |s| + i];
    }
  }

  /** One iteration of the outer loop with the line `readline()` returned: an empty line
      is skipped; otherwise it is appended, the buffer prepared and drained. */
  function Feed(decode: Decoder, buffer: string, line: string): (r: Round)
    requires Sound(decode)
    ensures line == [] ==> r == Round(buffer, [])
    ensures line != [] ==> IsSuffix(r.rest, buffer + line)
    ensures line != [] ==> r.rest == [] || decode(r.rest).None?
    ensures line != [] && r.samples == [] ==> r.rest == Prepare(buffer + line)
  {
    if line == [] then Round(buffer, []) else Drain(decode, Prepare(buffer + line))
  }

  /** Draining again without new input emits nothing and keeps the buffer. */
  lemma DrainSettles(decode: Decoder, buffer: string)
    requires Sound(decode)
    ensures Drain(decode, Drain(decode, buffer).rest) == Round(Drain(decode, buffer).rest, [])
  {
  }

  /** Text that does not start with a bracket or whitespace is already prepared. */
  lemma PrepareKeeps(text: string)
    requires text == [] || (text[0] != '[' && !IsSpace(text[0]))
    ensures Prepare(text) == text
  {
  }

  /** `lstrip` removes exactly a maximal run of characters from the set: when the first `k`
      characters are in the set and the next one is not (or there is none), the result is
      what follows them. */
  lemma {:induction false} StripRun(s: string, strip: char -> bool, k: nat)
    requires k <= |s|
    requires forall i | 0 <= i < k :: strip(s[i])
    requires k == |s| || !strip(s[k])
    ensures StripLeading(s, strip) == s[k..]
    decreases k
  {
    if k > 0 {
      assert forall i | 0 <= i < k - 1 :: s[1..][i] == s[i + 1];
      assert k - 1 == |s[1..]| || s[1..][k - 1] == s[k];
      StripRun(s[1..], strip, k - 1);
      assert s[1..][k - 1..] == s[k..];
    }
  }

  /** The `k` characters from `start` on are commas, and the one after them is not. */
  predicate CommaRun(s: string, start: nat, k: nat) {
    && start + k <= |s|
    && (forall i | start <= i < start + k :: s[i] == ',')
    && (start + k == |s| || s[start + k] != ',')
  }

  /** One successful decode ending at `end`, followed by a run of `k` commas: the value is
      emitted first, then everything decoded from the text after the commas, in order. */
  lemma DrainStep(decode: Decoder, buffer: string, obj: Json, end: nat, k: nat)
    requires Sound(decode)
    requires buffer != [] && decode(buffer) == Some(Decoded(obj, end))
    requires CommaRun(buffer, end, k)
    ensures var next := Drain(decode, buffer[end + k..]);
      Drain(decode, buffer) == Round(next.rest, [obj] + next.samples)
  {
    var after := buffer[end..];
    assert forall i | 0 <= i < k :: after[i] == buffer[end + i];
    assert k == |after| || after[k] == buffer[end + k];
    StripRun(after, IsComma, k);
    assert after[k..] == buffer[end + k..];
  }

  /** `DrainStep` for a single comma after the value. */
  lemma DrainOneComma(decode: Decoder, text: string, obj: Json, cut: nat)
    requires Sound(decode)
    requires text != [] && decode(text) == Some(Decoded(obj, cut))
    requires cut + 1 < |text| && text[cut] == ',' && text[cut + 1] != ','
    ensures var next := Drain(decode, text[cut + 1..]);
      Drain(decode, text) == Round(next.rest, [obj] + next.samples)
  {
    assert CommaRun(text, cut, 1);
    DrainStep(decode, text, obj, cut, 1);
  }

  /** A value that spans the whole buffer is emitted alone and empties it. */
  lemma DrainWhole(decode: Decoder, text: string, obj: Json)
    requires Sound(decode)
    requires text != []
    requires decode(text) == Some(Decoded(obj, |text|))
    ensures Drain(decode, text) == Round([], [obj])
  {
    assert text[|text|..] == [];
    assert Drain(decode, []) == Round([], []);
  }

  /** A value ending at `end` and followed by no comma, after which nothing decodes, is
      emitted alone; everything after it stays in the buffer. */
  lemma DrainStop(decode: Decoder, text: string, obj: Json, end: nat)
    requires Sound(decode)
    requires text != [] && decode(text) == Some(Decoded(obj, end))
    requires end == |text| || (text[end] != ',' && decode(text[end..]).None?)
    ensures Drain(decode, text) == Round(text[end..], [obj])
  {
    assert CommaRun(text, end, 0);
    DrainStep(decode, text, obj, end, 0);
    assert text[end + 0..] == text[end..];
    assert Drain(decode, text[end..]) == Round(text[end..], []);
  }

  /** A line needing no preparation is drained as it stands. */
  lemma FeedPrepared(decode: Decoder, text: string)
    requires Sound(decode)
    requires text != [] && text[0] != '[' && !IsSpace(text[0])
    ensures Feed(decode, [], text) == Drain(decode, text)
  {
    assert [] + text == text;
    PrepareKeeps(text);
  }

  /** A line after which the buffer, needing no preparation, holds one value ending at `end`
      and followed by no comma, and nothing decodes after it: that value is emitted alone and
      the rest of the text stays in the buffer. */
  lemma FeedStop(decode: Decoder, buffer: string, line: string, obj: Json, end: nat)
    requires Sound(decode)
    requires line != []
    requires (buffer + line)[0] != '[' && !IsSpace((buffer + line)[0])
    requires decode(buffer + line) == Some(Decoded(obj, end))
    requires end == |buffer + line| || ((buffer + line)[end] != ',' && decode((buffer + line)[end..]).None?)
    ensures Feed(decode, buffer, line) == Round((buffer + line)[end..], [obj])
  {
    PrepareKeeps(buffer + line);
    DrainStop(decode, buffer + line, obj, end);
  }

  /** A line as `readline` returns it, one complete object and its newline, yields exactly
      that object; the newline, on which `raw_decode` fails, stays in the buffer. */
  lemma WholeObjectInOneLine(decode: Decoder, text: string, obj: Json)
    requires Sound(decode)
    requires text != [] && text[0] != '[' && !IsSpace(text[0])
    requires decode(text + "\n") == Some(Decoded(obj, |text|))
    requires decode("\n").None?
    ensures Feed(decode, [], text + "\n") == Round("\n", [obj])
  {
    var line := text + "\n";
    assert [] + line == line;
    assert line[0] == text[0];
    assert line[|text|] == '\n' && line[|text|..] == "\n";
    FeedStop(decode, [], line, obj, |text|);
  }

  /** The newline left behind after a value is harmless: it is stripped as leading
      whitespace once the next line, not starting with `[`, is appended. */
  lemma NewlineLeftoverDropped(decode: Decoder, line: string)
    requires Sound(decode)
    requires line != [] && line[0] != '['
    ensures Feed(decode, "\n", line) == Feed(decode, [], line)
  {
    var t := "\n" + line;
    assert t[0] == '\n' && t[1..] == line;
    assert [] + line == line && line[0..] == line && t[0..] == t;
    assert Prepare(t) == StripLeading(line, IsSpace) == Prepare(line);
  }

  /** An object split across two `readline` lines: nothing after the first, whose text is
      kept in the buffer with its newline, and the whole object after the second, whose
      newline stays behind. */
  lemma ObjectSplitAcrossLines(decode: Decoder, first: string, second: string, obj: Json)
    requires Sound(decode)
    requires first != [] && first[0] != '[' && !IsSpace(first[0])
    requires decode(first + "\n").None?
    requires decode(first + "\n" + second + "\n") == Some(Decoded(obj, |first| + 1 + |second|))
    requires decode("\n").None?
    ensures Feed(decode, [], first + "\n") == Round(first + "\n", [])
    ensures Feed(decode, first + "\n", second + "\n") == Round("\n", [obj])
  {
    var line := first + "\n";
    assert Feed(decode, [], line) == Round(line, []) by {
      assert line[0] == first[0];
      FeedPrepared(decode, line);
    }
    var next := second + "\n";
    var end := |first| + 1 + |second|;
    assert (line + next)[0] == first[0];
    assert line + next == first + "\n" + second + "\n";
    assert (line + next)[end] == '\n' && (line + next)[end..] == "\n";
    FeedStop(decode, line, next, obj, end);
  }

  /** Two values with one comma between them are drained both, in order; the second ends
      at `end` within the text after the comma, and what follows it stays. */
  lemma DrainTwo(decode: Decoder, text: string, cut: nat, o1: Json, o2: Json, end: nat)
    requires Sound(decode)
    requires text != [] && decode(text) == Some(Decoded(o1, cut))
    requires cut + 1 < |text| && text[cut] == ',' && text[cut + 1] != ','
    requires decode(text[cut + 1..]) == Some(Decoded(o2, end))
    requires cut + 1 + end == |text|
      || (text[cut + 1 + end] != ',' && decode(text[cut + 1 + end..]).None?)
    ensures Drain(decode, text) == Round(text[cut + 1 + end..], [o1, o2])
  {
    DrainOneComma(decode, text, o1, cut);
    var b := text[cut + 1..];
    var rest := text[cut + 1 + end..];
    assert Drain(decode, b) == Round(rest, [o2]) by {
      assert |b| == |text| - cut - 1 > 0;
      assert b[end..] == rest;
      assert end == |b| || b[end] == text[cut + 1 + end];
      DrainStop(decode, b, o2, end);
    }
    assert [o1] + [o2] == [o1, o2];
  }

  /** Two objects separated by a comma in one `readline` line are emitted both, in order:
      the first ends at `cut`, where the comma is, and the second runs to the newline. */
  lemma TwoObjectsInOrder(decode: Decoder, line: string, cut: nat, o1: Json, o2: Json)
    requires Sound(decode)
    requires line != [] && line[0] != '[' && !IsSpace(line[0])
    requires cut + 1 < |line| && line[cut] == ',' && line[cut + 1] != ','
    requires decode(line + "\n") == Some(Decoded(o1, cut))
    requires decode(line[cut + 1..] + "\n") == Some(Decoded(o2, |line| - cut - 1))
    requires decode("\n").None?
    ensures Feed(decode, [], line + "\n") == Round("\n", [o1, o2])
  {
    var t := line + "\n";
    assert t[0] == line[0] && t[cut] == ',' && t[cut + 1] == line[cut + 1];
    assert t[cut + 1..] == line[cut + 1..] + "\n";
    assert t[|line|] == '\n' && t[|line|..] == "\n";
    assert Drain(decode, t) == Round("\n", [o1, o2]) by {
      DrainTwo(decode, t, cut, o1, o2, |line| - cut - 1);
    }
    FeedPrepared(decode, t);
  }

  /** A first line opening the array and starting a value that is not yet complete emits
      nothing and keeps that start, without the `[`, in the buffer. */
  lemma OpeningLine(decode: Decoder, first: string)
    requires Sound(decode)
    requires first != [] && first[0] != '[' && !IsSpace(first[0])
    requires decode(first).None?
    ensures Feed(decode, [], "[" + first) == Round(first, [])
  {
    var text := [] + ("[" + first);
    assert text == "[" + first;
    assert text[1..] == first;
    PrepareKeeps(first);
    assert Prepare(text) == first;
  }

  /** A last `readline` line completing the buffered value and closing the array with `]`
      emits the value and keeps `]` and the newline, since `raw_decode` fails on them and
      only commas are stripped after a value. */
  lemma ClosingLine(decode: Decoder, buffer: string, last: string, obj: Json)
    requires Sound(decode)
    requires buffer != [] && buffer[0] != '[' && !IsSpace(buffer[0])
    requires last != [] && last[|last| - 1] == ']'
    requires decode(buffer + last + "\n") == Some(Decoded(obj, |buffer| + |last| - 1))
    requires decode("]\n").None?
    ensures Feed(decode, buffer, last + "\n") == Round("]\n", [obj])
  {
    var line := last + "\n";
    var end := |buffer| + |last| - 1;
    assert (buffer + line)[0] == buffer[0];
    assert buffer + line == buffer + last + "\n";
    assert (buffer + line)[end] == last[|last| - 1];
    assert (buffer + line)[end..] == "]\n";
    FeedStop(decode, buffer, line, obj, end);
  }

  /** A two-line bracketed stream, in `readline` lines: the first opens the array and
      starts an object, the last ends the object and closes the array. Nothing is emitted
      after the first line; after the last the object is emitted and `]` with its newline
      stays in the buffer. */
  lemma BracketedStream(decode: Decoder, first: string, last: string, obj: Json)
    requires Sound(decode)
    requires first != [] && first[0] != '[' && !IsSpace(first[0])
    requires decode(first + "\n").None?
    requires last != [] && last[|last| - 1] == ']'
    requires decode(first + "\n" + last + "\n") == Some(Decoded(obj, |first| + |last|))
    requires decode("]\n").None?
    ensures Feed(decode, [], "[" + (first + "\n")) == Round(first + "\n", [])
    ensures Feed(decode, first + "\n", last + "\n") == Round("]\n", [obj])
  {
    var line := first + "\n";
    assert line[0] == first[0];
    ClosingLine(decode, line, last, obj);
    OpeningLine(decode, line);
  }

  /** A line holding only the opening `[` and whitespace, such as `"[\n"`, is consumed
      and leaves nothing behind. */
  lemma BracketLineLeavesNothing(decode: Decoder, blank: string)
    requires Sound(decode)
    requires forall i | 0 <= i < |blank| :: IsSpace(blank[i])
    ensures Feed(decode, [], "[" + blank) == Round([], [])
  {
    var text := [] + ("[" + blank);
    assert text == "[" + blank;
    assert text[1..] == blank;
    StripRun(blank, IsSpace, |blank|);
    assert Prepare(text) == [];
    assert Drain(decode, []) == Round([], []);
  }
}

=== FILE: json.dfy ===
/** Decoded JSON values, and the few Python operations the exporter applies to them. */
module JsonValues {
  import opened Options

  /** A value as Python's json module decodes it: objects become dicts keyed by strings.
      Numbers are kept as exact reals. */
  datatype Json =
    | Null
    | Bool(b: bool)
    | Num(n: real)
    | Str(s: string)
    | Arr(items: seq<Json>)
    | Obj(fields: map<string, Json>)

  /** The empty dict `{}` used as a default. */
  const Empty: Json := Obj(map[])

  /** The default `0` / `0.0`; Gauge.set turns both into the float 0.0. */
  const Zero: Json := Num(0.0)

  /** `d.get(key, default)` on a dict. */
  function Get(d: map<string, Json>, key: string, default: Json): Json {
    if key in d then d[key] else default
  }

  /** Calling `.get` or `.items()` on a value: only a dict has them, anything else raises. */
  function AsDict(j: Json): Option<map<string, Json>> {
    if j.Obj? then Some(j.fields) else None
  }

  /** `float(j)`, which `Gauge.set` applies to its argument: numbers pass through,
      booleans become 1.0 or 0.0, and null, lists and dicts raise. Strings are treated as
      raising too: Python would parse a numeric string such as "1.5", which is not modelled. */
  function ToGauge(j: Json): Option<real> {
    match j
    case Num(n) => Some(n)
    case Bool(b) => Some(if b then 1.0 else 0.0)
    case _ => None
  }
}

=== FILE: mapper.dfy ===
/** The frame mapper: `update(data)` and its nested `get_engine`, as a pure function from
    one decoded sample and the current registry to the registry after the update. */
module Mapper {
  import opened Options
  import opened JsonValues
  import opened Metrics

  /** `data.get(key, {})` used as a dict: an absent key reads as `{}`, a present
      non-dict value makes the following `.get` raise. */
  function Section(data: map<string, Json>, key: string): Option<map<string, Json>> {
    AsDict(Get(data, key, Empty))
  }

  /** `gauge.set(section.get(key, 0))`: the value that lands in the gauge. */
  function Reading(section: map<string, Json>, key: string): Option<real> {
    ToGauge(Get(section, key, Zero))
  }

  /** The reading of one scalar gauge, e.g. `gpu_period.set(data.get("period", {}).get("duration", 0))`. */
  function ScalarReading(data: map<string, Json>, g: ScalarGauge): Option<real> {
    var section :- Section(data, g.Section());
    Reading(section, g.Leaf())
  }

  /** `get_engine(name)`: the entry under the bare name wins, even when the
      instance-0 alias `name + "/0"` is also present; otherwise the alias; otherwise `{}`. */
  function GetEngine(data: map<string, Json>, name: string): (r: Option<Json>)
    ensures match Section(data, "engines")
      case None => r.None?
      case Some(engines) =>
        && (name in engines ==> r == Some(engines[name]))
        && (name !in engines && name + "/0" in engines ==> r == Some(engines[name + "/0"]))
        && (name !in engines && name + "/0" !in engines ==> r == Some(Empty))
  {
    var engines :- Section(data, "engines");
    Some(Get(engines, name, Get(engines, name + "/0", Empty)))
  }

  /** The resolved engine of a kind, used as a dict by the `.get("busy", 0.0)` calls. */
  function EngineStats(data: map<string, Json>, kind: EngineKind): Option<map<string, Json>> {
    var engine :- GetEngine(data, kind.Key());
    AsDict(engine)
  }

  /** The (name, measure) pairs of a sample's engines dict that the labelled gauge
      receives: every measure of every engine except `unit`. */
  function SampleLabels(engines: map<string, Json>): set<Label> {
    set name, measure | name in engines && engines[name].Obj? && measure in engines[name].fields
      && measure != "unit" :: (name, measure)
  }

  /** One engine's stats can be iterated with `.items()` and every value but `unit`
      goes through `float()`. */
  predicate StatsConform(stats: Json) {
    && stats.Obj?
    && forall measure | measure in stats.fields && measure != "unit" :: ToGauge(stats.fields[measure]).Some?
  }

  /** The sample's value for each of its label pairs, through `float()`. */
  function SampleValues(engines: map<string, Json>): map<Label, real>
    requires forall name | name in engines :: StatsConform(engines[name])
  {
    map p | p in SampleLabels(engines) ::
      LabelInSample(engines, p);
      assert StatsConform(engines[p.0]);
      ToGauge(engines[p.0].fields[p.1]).value
  }

  lemma LabelInSample(engines: map<string, Json>, p: Label)
    requires p in SampleLabels(engines)
    ensures p.0 in engines && engines[p.0].Obj? && p.1 in engines[p.0].fields && p.1 != "unit"
  {
  }

  /** The loop `for (name, stats) in data.get('engines', {}).items(): ...`: each pair is
      written at most once, so the labelled gauge after the loop is the previous one
      overwritten by the sample's pairs. */
  function PublishEngines(data: map<string, Json>, labelled: map<Label, real>): (r: Option<map<Label, real>>)
  {
    var engines :- Section(data, "engines");
    if forall name | name in engines :: StatsConform(engines[name]) then
      Some(labelled + SampleValues(engines))
    else
      None
  }

  /** The nine scalar gauges' readings, lines `gpu_period.set(...)` to `gpu_power_package.set(...)`. */
  function ScalarReadings(data: map<string, Json>): Option<map<GaugeId, real>> {
    if forall g: ScalarGauge :: ScalarReading(data, g).Some? then
      Some(map k | k in AllGauges && k.Scalar? :: ScalarReading(data, k.gauge).value)
    else
      None
  }

  /** One engine kind's three gauges, e.g. `render3d = get_engine("Render/3D")` followed by
      `gpu_engines_render_3d_busy.set(render3d.get("busy", 0.0))` and the same for sema and wait. */
  function KindReadings(data: map<string, Json>, kind: EngineKind): Option<map<GaugeId, real>> {
    var stats :- EngineStats(data, kind);
    var busy :- Reading(stats, "busy");
    var sema :- Reading(stats, "sema");
    var wait :- Reading(stats, "wait");
    Some(map[Engine(kind, Busy) := busy, Engine(kind, Sema) := sema, Engine(kind, Wait) := wait])
  }

  /** The fifteen fixed engine gauges. */
  function EngineReadings(data: map<string, Json>): Option<map<GaugeId, real>> {
    var render :- KindReadings(data, Render3D);
    var blitter :- KindReadings(data, Blitter);
    var video :- KindReadings(data, Video);
    var enhance :- KindReadings(data, VideoEnhance);
    var compute :- KindReadings(data, Compute);
    Some(render + blitter + video + enhance + compute)
  }

  /** `update(data)`: overwrite every fixed gauge from the sample and publish its engines.
      `None` when one of the dict accesses or float conversions raises; which one raises
      first does not matter, since the exception ends the exporter. */
  function Update(sample: Json, reg: Registry): (r: Option<Registry>)
  {
    var data :- AsDict(sample);
    var labelled :- PublishEngines(data, reg.labelled);
    var scalars :- ScalarReadings(data);
    var engines :- EngineReadings(data);
    Some(Registry(reg.gauges + scalars + engines, labelled))
  }
}

/** What `update(data)` promises, stated against the sample's paths rather than the
    sequence of calls that computes it. */
module MapperSpec {
  import opened Options
  import opened JsonValues
  import opened Metrics
  import opened Mapper

  /** The value at `section.leaf` of the sample, or `default` when there is none. */
  function PathOr(sample: Json, section: string, leaf: string, default: Json): Json {
    if && sample.Obj?
       && section in sample.fields
       && sample.fields[section].Obj?
       && leaf in sample.fields[section].fields
    then sample.fields[section].fields[leaf]
    else default
  }

  /** A scalar gauge's section is absent or a dict, and its leaf is absent or numeric. */
  predicate PathConforms(data: map<string, Json>, g: ScalarGauge) {
    g.Section() in data ==>
      && data[g.Section()].Obj?
      && (g.Leaf() in data[g.Section()].fields ==> ToGauge(data[g.Section()].fields[g.Leaf()]).Some?)
  }

  /** The engines entry is absent, or a dict whose every engine conforms. */
  predicate EnginesConform(data: map<string, Json>) {
    "engines" in data ==>
      && data["engines"].Obj?
      && forall name | name in data["engines"].fields :: StatsConform(data["engines"].fields[name])
  }

  /** The samples on which `update` does not raise. */
  ghost predicate Conforms(sample: Json) {
    && sample.Obj?
    && EnginesConform(sample.fields)
    && forall g: ScalarGauge :: PathConforms(sample.fields, g)
  }

  /** `(name, measure)` is a pair the sample's engines loop writes. */
  predicate IsPublished(sample: Json, name: string, measure: string) {
    && sample.Obj?
    && "engines" in sample.fields
    && sample.fields["engines"].Obj?
    && name in sample.fields["engines"].fields
    && sample.fields["engines"].fields[name].Obj?
    && measure in sample.fields["engines"].fields[name].fields
    && measure != "unit"
  }

  /** The sample's value for a published pair. */
  function PublishedValue(sample: Json, name: string, measure: string): Json
    requires IsPublished(sample, name, measure)
  {
    sample.fields["engines"].fields[name].fields[measure]
  }

  lemma ScalarReadingMeaning(data: map<string, Json>, g: ScalarGauge)
    ensures ScalarReading(data, g).Some? <==> PathConforms(data, g)
    ensures ScalarReading(data, g).Some? ==>
      Some(ScalarReading(data, g).value) == ToGauge(PathOr(Obj(data), g.Section(), g.Leaf(), Zero))
  {
  }

  /** The scalar readings exist exactly when every scalar path conforms. */
  lemma ScalarReadingsIff(data: map<string, Json>)
    ensures ScalarReadings(data).Some? <==> forall g: ScalarGauge :: PathConforms(data, g)
  {
    forall g: ScalarGauge ensures ScalarReading(data, g).Some? <==> PathConforms(data, g) {
      ScalarReadingMeaning(data, g);
    }
    if forall g: ScalarGauge :: PathConforms(data, g) {
      assert ScalarReading(data, Period).Some?;
    } else {
      var g: ScalarGauge :| !PathConforms(data, g);
      assert ScalarReading(data, g).None?;
      match g {
        case Period =>
        case FrequencyActual =>
        case FrequencyRequested =>
        case Interrupts =>
        case Rc6 =>
        case ImcReads =>
        case ImcWrites =>
        case PowerGpu =>
        case PowerPackage =>
      }
    }
  }

  /** The engines loop raises exactly when the engines entry does not conform. */
  lemma PublishEnginesIff(data: map<string, Json>, labelled: map<Label, real>)
    ensures PublishEngines(data, labelled).Some? <==> EnginesConform(data)
  {
  }

  /** Under a conforming engines entry, whatever `get_engine` resolves conforms too. */
  lemma ResolvedConforms(data: map<string, Json>, name: string)
    requires EnginesConform(data)
    ensures GetEngine(data, name).Some? && StatsConform(GetEngine(data, name).value)
  {
    var engines := Section(data, "engines").value;
    if name in engines {
      assert StatsConform(engines[name]);
    } else if name + "/0" in engines {
      assert StatsConform(engines[name + "/0"]);
    }
  }

  /** A measure other than `unit` of a conforming engine has a reading. */
  lemma MeasureReads(stats: Json, m: Measure)
    requires StatsConform(stats)
    ensures Reading(stats.fields, m.Key()).Some?
  {
    if m.Key() in stats.fields {
      assert ToGauge(stats.fields[m.Key()]).Some?;
    }
  }

  /** Under a conforming engines entry every fixed engine gauge has a reading. */
  lemma KindReadingsDefined(data: map<string, Json>, kind: EngineKind)
    requires EnginesConform(data)
    ensures KindReadings(data, kind).Some?
  {
    ResolvedConforms(data, kind.Key());
    var stats := GetEngine(data, kind.Key()).value;
    MeasureReads(stats, Busy);
    MeasureReads(stats, Sema);
    MeasureReads(stats, Wait);
  }

  lemma EngineReadingsDefined(data: map<string, Json>)
    requires EnginesConform(data)
    ensures EngineReadings(data).Some?
  {
    KindReadingsDefined(data, Render3D);
    KindReadingsDefined(data, Blitter);
    KindReadingsDefined(data, Video);
    KindReadingsDefined(data, VideoEnhance);
    KindReadingsDefined(data, Compute);
  }

  /** `update` raises exactly on the samples that do not conform. */
  lemma UpdateSucceedsIff(sample: Json, reg: Registry)
    ensures Update(sample, reg).Some? <==> Conforms(sample)
  {
    if sample.Obj? {
      var data := sample.fields;
      ScalarReadingsIff(data);
      PublishEnginesIff(data, reg.labelled);
      if EnginesConform(data) {
        EngineReadingsDefined(data);
      }
    }
  }

  lemma ScalarReadingsValues(data: map<string, Json>, g: ScalarGauge)
    requires ScalarReadings(data).Some?
    ensures Scalar(g) in ScalarReadings(data).value
    ensures Some(ScalarReadings(data).value[Scalar(g)]) == ScalarReading(data, g)
  {
    AllGaugesComplete(Scalar(g));
  }

  lemma KindReadingsValues(data: map<string, Json>, kind: EngineKind, m: Measure)
    requires KindReadings(data, kind).Some?
    ensures EngineStats(data, kind).Some?
    ensures Engine(kind, m) in KindReadings(data, kind).value
    ensures Some(KindReadings(data, kind).value[Engine(kind, m)]) == Reading(EngineStats(data, kind).value, m.Key())
    ensures forall g | g in KindReadings(data, kind).value :: g.Engine? && g.kind == kind
  {
  }

  lemma EngineReadingsValues(data: map<string, Json>, kind: EngineKind, m: Measure)
    requires EngineReadings(data).Some?
    ensures EngineStats(data, kind).Some?
    ensures Engine(kind, m) in EngineReadings(data).value
    ensures Some(EngineReadings(data).value[Engine(kind, m)]) == Reading(EngineStats(data, kind).value, m.Key())
    ensures forall g | g in EngineReadings(data).value :: g.Engine?
  {
    KindReadingsValues(data, Render3D, m);
    KindReadingsValues(data, Blitter, m);
    KindReadingsValues(data, Video, m);
    KindReadingsValues(data, VideoEnhance, m);
    KindReadingsValues(data, Compute, m);
  }

  /** The registry `update` produces: the previous gauges overwritten by the readings, and
      the labelled gauge after the engines loop. */
  lemma UpdateShape(sample: Json, reg: Registry, r: Registry)
    requires Update(sample, reg) == Some(r)
    ensures sample.Obj?
    ensures PublishEngines(sample.fields, reg.labelled) == Some(r.labelled)
    ensures ScalarReadings(sample.fields).Some? && EngineReadings(sample.fields).Some?
    ensures r.gauges == reg.gauges + ScalarReadings(sample.fields).value + EngineReadings(sample.fields).value
  {
  }

  /** Each scalar gauge holds the value at its path, or 0 when the section or the leaf
      is absent; no other part of the sample affects it. */
  lemma UpdateScalarGauge(sample: Json, reg: Registry, r: Registry, g: ScalarGauge)
    requires Update(sample, reg) == Some(r)
    ensures Scalar(g) in r.gauges
    ensures Some(r.gauges[Scalar(g)]) == ToGauge(PathOr(sample, g.Section(), g.Leaf(), Zero))
  {
    UpdateShape(sample, reg, r);
    var data := sample.fields;
    ScalarReadingsValues(data, g);
    ScalarReadingMeaning(data, g);
    EngineReadingsValues(data, Render3D, Busy);
    assert Scalar(g) !in EngineReadings(data).value;
  }

  /** Each fixed engine gauge holds the resolved engine's measure, or 0.0 when the
      resolved engine lacks it. */
  lemma UpdateEngineGauge(sample: Json, reg: Registry, r: Registry, kind: EngineKind, m: Measure)
    requires Update(sample, reg) == Some(r)
    ensures sample.Obj? && GetEngine(sample.fields, kind.Key()).Some?
    ensures GetEngine(sample.fields, kind.Key()).value.Obj?
    ensures Engine(kind, m) in r.gauges
    ensures Some(r.gauges[Engine(kind, m)]) == ToGauge(Get(GetEngine(sample.fields, kind.Key()).value.fields, m.Key(), Zero))
  {
    UpdateShape(sample, reg, r);
    EngineReadingsValues(sample.fields, kind, m);
  }

  /** The labelled gauge gains every (engine, measure) pair of the sample except `unit`,
      with the sample's value; every other pair keeps its previous value, so the set of
      pairs only grows. */
  lemma UpdateLabels(sample: Json, reg: Registry, r: Registry)
    requires Update(sample, reg) == Some(r)
    ensures forall name, measure ::
      ((name, measure) in r.labelled) <==> ((name, measure) in reg.labelled || IsPublished(sample, name, measure))
    ensures forall name, measure | IsPublished(sample, name, measure) ::
      Some(r.labelled[(name, measure)]) == ToGauge(PublishedValue(sample, name, measure))
    ensures forall name, measure | (name, measure) in reg.labelled && !IsPublished(sample, name, measure) ::
      r.labelled[(name, measure)] == reg.labelled[(name, measure)]
  {
    UpdateShape(sample, reg, r);
    var engines := Section(sample.fields, "engines").value;
    var values := SampleValues(engines);
    assert r.labelled == reg.labelled + values;
    forall name, measure ensures (name, measure) in values <==> IsPublished(sample, name, measure) {
      if (name, measure) in values {
        LabelInSample(engines, (name, measure));
      }
    }
    forall name, measure | IsPublished(sample, name, measure)
      ensures Some(values[(name, measure)]) == ToGauge(PublishedValue(sample, name, measure))
    {
      assert StatsConform(engines[name]);
    }
  }

  /** No `(name, "unit")` pair is ever written by `update`. */
  lemma UnitNeverPublished(sample: Json, reg: Registry, r: Registry, name: string)
    requires Update(sample, reg) == Some(r)
    ensures (name, "unit") in r.labelled <==> (name, "unit") in reg.labelled
    ensures (name, "unit") in reg.labelled ==> r.labelled[(name, "unit")] == reg.labelled[(name, "unit")]
  {
    UpdateLabels(sample, reg, r);
  }

  /** Every fixed gauge is overwritten: its value after `update` depends on the sample only,
      never on the registry it was applied to. */
  lemma UpdateGaugesIgnorePrevious(sample: Json, reg1: Registry, reg2: Registry)
    requires Update(sample, reg1).Some?
    ensures Update(sample, reg2).Some?
    ensures Valid(Update(sample, reg1).value)
    ensures Update(sample, reg1).value.gauges == Update(sample, reg2).value.gauges
  {
    UpdateSucceedsIff(sample, reg1);
    UpdateSucceedsIff(sample, reg2);
    var r1 := Update(sample, reg1).value;
    var r2 := Update(sample, reg2).value;
    forall g: GaugeId ensures g in r1.gauges && g in r2.gauges && r1.gauges[g] == r2.gauges[g] {
      match g
      case Scalar(s) =>
        UpdateScalarGauge(sample, reg1, r1, s);
        UpdateScalarGauge(sample, reg2, r2, s);
      case Engine(k, m) =>
        UpdateEngineGauge(sample, reg1, r1, k, m);
        UpdateEngineGauge(sample, reg2, r2, k, m);
    }
    assert r1.gauges.Keys == r2.gauges.Keys;
  }

  /** Applying the same sample twice leaves the registry as applying it once. */
  lemma UpdateIdempotent(sample: Json, reg: Registry)
    requires Update(sample, reg).Some?
    ensures Update(sample, Update(sample, reg).value) == Update(sample, reg)
  {
    var r := Update(sample, reg).value;
    UpdateGaugesIgnorePrevious(sample, reg, r);
    var r2 := Update(sample, r).value;
    UpdateShape(sample, reg, r);
    UpdateShape(sample, r, r2);
    var values := SampleValues(Section(sample.fields, "engines").value);
    assert r.labelled == reg.labelled + values;
    assert r2.labelled == r.labelled + values;
    assert r2.labelled == r.labelled;
  }

  /** The render engine's entry in that sample. */
  function AliasedRenderStats(): map<string, Json> {
    map["busy" := Num(12.5), "sema" := Num(0.0), "wait" := Num(3.1), "unit" := Str("%")]
  }

  /** The sample `{"period": {"duration": 10000}, "engines": {"Render/3D/0": {"busy": 12.5,
      "sema": 0.0, "wait": 3.1, "unit": "%"}}}`, whose render engine is keyed by its alias. */
  function AliasedRenderSample(): Json {
    Obj(map[
      "period" := Obj(map["duration" := Num(10000.0)]),
      "engines" := Obj(map[
        "Render/3D/0" := Obj(AliasedRenderStats())
      ])
    ])
  }

  lemma AliasedRenderConforms()
    ensures Conforms(AliasedRenderSample())
  {
    var data := AliasedRenderSample().fields;
    assert data.Keys == {"period", "engines"};
    forall g: ScalarGauge ensures PathConforms(data, g) {
      match g {
        case Period =>
        case FrequencyActual =>
        case FrequencyRequested =>
        case Interrupts =>
        case Rc6 =>
        case ImcReads =>
        case ImcWrites =>
        case PowerGpu =>
        case PowerPackage =>
      }
    }
    var render := data["engines"].fields["Render/3D/0"];
    assert render.fields.Keys == {"busy", "sema", "wait", "unit"};
    assert StatsConform(render);
  }

  lemma AliasedRenderPaths(sample: Json)
    requires sample == AliasedRenderSample()
    ensures PathOr(sample, Period.Section(), Period.Leaf(), Zero) == Num(10000.0)
    ensures PathOr(sample, Rc6.Section(), Rc6.Leaf(), Zero) == Zero
  {
  }

  lemma ScalarFromPath(sample: Json, reg: Registry, r: Registry, g: ScalarGauge, v: real)
    requires Update(sample, reg) == Some(r)
    requires PathOr(sample, g.Section(), g.Leaf(), Zero) == Num(v)
    ensures Scalar(g) in r.gauges && r.gauges[Scalar(g)] == v
  {
    UpdateScalarGauge(sample, reg, r, g);
  }

  lemma EngineFromResolved(sample: Json, reg: Registry, r: Registry, kind: EngineKind, m: Measure, stats: map<string, Json>, v: real)
    requires Update(sample, reg) == Some(r)
    requires sample.Obj? && GetEngine(sample.fields, kind.Key()) == Some(Obj(stats))
    requires ToGauge(Get(stats, m.Key(), Zero)) == Some(v)
    ensures Engine(kind, m) in r.gauges && r.gauges[Engine(kind, m)] == v
  {
    UpdateEngineGauge(sample, reg, r, kind, m);
  }

  /** `get_engine` finds the render engine under its alias and nothing for the blitter. */
  lemma AliasedRenderResolves()
    ensures GetEngine(AliasedRenderSample().fields, Render3D.Key()) == Some(Obj(AliasedRenderStats()))
    ensures GetEngine(AliasedRenderSample().fields, Blitter.Key()) == Some(Empty)
  {
    assert "Render/3D" + "/0" == "Render/3D/0";
    assert "Blitter" + "/0" == "Blitter/0";
  }

  lemma AliasedRenderEngines(sample: Json, reg: Registry, r: Registry)
    requires sample == AliasedRenderSample()
    requires Update(sample, reg) == Some(r)
    ensures Engine(Render3D, Busy) in r.gauges && r.gauges[Engine(Render3D, Busy)] == 12.5
    ensures Engine(Render3D, Wait) in r.gauges && r.gauges[Engine(Render3D, Wait)] == 3.1
    ensures Engine(Blitter, Busy) in r.gauges && r.gauges[Engine(Blitter, Busy)] == 0.0
  {
    AliasedRenderResolves();
    var render := AliasedRenderStats();
    EngineFromResolved(sample, reg, r, Render3D, Busy, render, 12.5);
    EngineFromResolved(sample, reg, r, Render3D, Wait, render, 3.1);
    EngineFromResolved(sample, reg, r, Blitter, Busy, map[], 0.0);
  }

  /** The sample publishes busy and wait under the alias, but neither `unit` nor the bare name. */
  lemma AliasedRenderPublishes()
    ensures IsPublished(AliasedRenderSample(), "Render/3D/0", "busy")
    ensures PublishedValue(AliasedRenderSample(), "Render/3D/0", "busy") == Num(12.5)
    ensures IsPublished(AliasedRenderSample(), "Render/3D/0", "wait")
    ensures PublishedValue(AliasedRenderSample(), "Render/3D/0", "wait") == Num(3.1)
    ensures !IsPublished(AliasedRenderSample(), "Render/3D/0", "unit")
    ensures !IsPublished(AliasedRenderSample(), "Render/3D", "busy")
  {
  }

  lemma AliasedRenderLabels(sample: Json, reg: Registry, r: Registry)
    requires sample == AliasedRenderSample()
    requires reg.labelled == map[]
    requires Update(sample, reg) == Some(r)
    ensures ("Render/3D/0", "busy") in r.labelled && r.labelled[("Render/3D/0", "busy")] == 12.5
    ensures ("Render/3D/0", "wait") in r.labelled && r.labelled[("Render/3D/0", "wait")] == 3.1
    ensures ("Render/3D/0", "unit") !in r.labelled
    ensures ("Render/3D", "busy") !in r.labelled
  {
    AliasedRenderPublishes();
    UpdateLabels(sample, reg, r);
  }

  /** Updating the initial registry with that sample: the render gauges read the alias entry,
      absent sections read 0, and the labelled gauge gets the measures under the engine's
      own name but not `unit`. */
  lemma AliasedRenderUpdate()
    ensures Update(AliasedRenderSample(), Initial()).Some?
    ensures Valid(Update(AliasedRenderSample(), Initial()).value)
    ensures var r := Update(AliasedRenderSample(), Initial()).value;
      && r.gauges[Scalar(Period)] == 10000.0
      && r.gauges[Scalar(Rc6)] == 0.0
      && r.gauges[Engine(Render3D, Busy)] == 12.5
      && r.gauges[Engine(Render3D, Wait)] == 3.1
      && r.gauges[Engine(Blitter, Busy)] == 0.0
      && ("Render/3D/0", "busy") in r.labelled && r.labelled[("Render/3D/0", "busy")] == 12.5
      && ("Render/3D/0", "wait") in r.labelled && r.labelled[("Render/3D/0", "wait")] == 3.1
      && ("Render/3D/0", "unit") !in r.labelled
      && ("Render/3D", "busy") !in r.labelled
  {
    var sample := AliasedRenderSample();
    var reg := Initial();
    AliasedRenderConforms();
    UpdateSucceedsIff(sample, reg);
    var r := Update(sample, reg).value;
    UpdateGaugesIgnorePrevious(sample, reg, reg);
    AliasedRenderPaths(sample);
    ScalarFromPath(sample, reg, r, Period, 10000.0);
    ScalarFromPath(sample, reg, r, Rc6, 0.0);
    AliasedRenderEngines(sample, reg, r);
    AliasedRenderLabels(sample, reg, r);
  }
}

=== FILE: metrics.dfy ===
/** The metric registry: the fixed gauges created at start-up and the one gauge
    labelled by (engine name, measure). */
module Metrics {

  /** The fixed gauges that read one numeric leaf of the sample. */
  datatype ScalarGauge =
    | Period
    | FrequencyActual
    | FrequencyRequested
    | Interrupts
    | Rc6
    | ImcReads
    | ImcWrites
    | PowerGpu
    | PowerPackage
  {
    /** The top-level key of the sample that holds the gauge's value. */
    function Section(): string {
      match this
      case Period => "period"
      case FrequencyActual => "frequency"
      case FrequencyRequested => "frequency"
      case Interrupts => "interrupts"
      case Rc6 => "rc6"
      case ImcReads => "imc-bandwidth"
      case ImcWrites => "imc-bandwidth"
      case PowerGpu => "power"
      case PowerPackage => "power"
    }

    /** The key inside that section. */
    function Leaf(): string {
      match this
      case Period => "duration"
      case FrequencyActual => "actual"
      case FrequencyRequested => "requested"
      case Interrupts => "count"
      case Rc6 => "value"
      case ImcReads => "reads"
      case ImcWrites => "writes"
      case PowerGpu => "GPU"
      case PowerPackage => "Package"
    }

    /** The exported metric name. */
    function Name(): string {
      match this
      case Period => "igpu_period"
      case FrequencyActual => "igpu_frequency_actual"
      case FrequencyRequested => "igpu_frequency_requested"
      case Interrupts => "igpu_interrupts"
      case Rc6 => "igpu_rc6"
      case ImcReads => "igpu_imc_bandwidth_reads"
      case ImcWrites => "igpu_imc_bandwidth_writes"
      case PowerGpu => "igpu_power_gpu"
      case PowerPackage => "igpu_power_package"
    }
  }

  /** The five engine kinds that have fixed busy/sema/wait gauges. */
  datatype EngineKind = Render3D | Blitter | Video | VideoEnhance | Compute {
    /** The engine's bare name in the sample's "engines" dict. */
    function Key(): string {
      match this
      case Render3D => "Render/3D"
      case Blitter => "Blitter"
      case Video => "Video"
      case VideoEnhance => "VideoEnhance"
      case Compute => "Compute"
    }

    /** The engine's part of the exported metric names. */
    function Slug(): string {
      match this
      case Render3D => "render_3d"
      case Blitter => "blitter"
      case Video => "video"
      case VideoEnhance => "video_enhance"
      case Compute => "compute"
    }
  }

  /** The three measures with fixed per-engine gauges. */
  datatype Measure = Busy | Sema | Wait {
    function Key(): string {
      match this
      case Busy => "busy"
      case Sema => "sema"
      case Wait => "wait"
    }
  }

  /** Every fixed (unlabelled) gauge. */
  datatype GaugeId = Scalar(gauge: ScalarGauge) | Engine(kind: EngineKind, measure: Measure) {
    function Name(): string {
      match this
      case Scalar(g) => g.Name()
      case Engine(k, m) => EnginePrefix + k.Slug() + "_0_" + m.Key()
    }
  }

  /** The labelled gauge's name; its labels are `name` and `measure`. */
  const LabelledName := "igpu_engines"

  /** A (name, measure) label pair of the labelled gauge. */
  type Label = (string, string)

  /** Latest value of every fixed gauge, and of every label pair written so far. */
  datatype Registry = Registry(gauges: map<GaugeId, real>, labelled: map<Label, real>)

  const AllGauges: set<GaugeId> := {
    Scalar(Period), Scalar(FrequencyActual), Scalar(FrequencyRequested), Scalar(Interrupts),
    Scalar(Rc6), Scalar(ImcReads), Scalar(ImcWrites), Scalar(PowerGpu), Scalar(PowerPackage),
    Engine(Render3D, Busy), Engine(Render3D, Sema), Engine(Render3D, Wait),
    Engine(Blitter, Busy), Engine(Blitter, Sema), Engine(Blitter, Wait),
    Engine(Video, Busy), Engine(Video, Sema), Engine(Video, Wait),
    Engine(VideoEnhance, Busy), Engine(VideoEnhance, Sema), Engine(VideoEnhance, Wait),
    Engine(Compute, Busy), Engine(Compute, Sema), Engine(Compute, Wait)
  }

  /** The module-level gauges are all created up front. */
  lemma AllGaugesComplete(g: GaugeId)
    ensures g in AllGauges
  {
    match g
    case Scalar(s) =>
      match s {
      case Period =>
      case FrequencyActual =>
      case FrequencyRequested =>
      case Interrupts =>
      case Rc6 =>
      case ImcReads =>
      case ImcWrites =>
      case PowerGpu =>
      case PowerPackage =>
      }
    case Engine(k, m) =>
      match (k, m) {
      case (Render3D, Busy) =>
      case (Render3D, Sema) =>
      case (Render3D, Wait) =>
      case (Blitter, Busy) =>
      case (Blitter, Sema) =>
      case (Blitter, Wait) =>
      case (Video, Busy) =>
      case (Video, Sema) =>
      case (Video, Wait) =>
      case (VideoEnhance, Busy) =>
      case (VideoEnhance, Sema) =>
      case (VideoEnhance, Wait) =>
      case (Compute, Busy) =>
      case (Compute, Sema) =>
      case (Compute, Wait) =>
      }
  }

  /** The five engine kinds have different slugs. */
  lemma SlugsDistinct(a: EngineKind, b: EngineKind)
    requires a != b
    ensures a.Slug() != b.Slug()
  {
  }

  /** The three measures have different keys. */
  lemma MeasureKeysDistinct(a: Measure, b: Measure)
    requires a != b
    ensures a.Key() != b.Key()
  {
  }

  /** The prefix every engine gauge's name starts with. */
  const EnginePrefix := "igpu_engines_"

  /** An engine gauge's name is `igpu_engines_`, its slug, `_0_` and its four-letter
      measure key, so the slug and the key can be read back from the name. */
  lemma EngineNameParts(k: EngineKind, m: Measure)
    ensures var n := Engine(k, m).Name();
      && |n| == 20 + |k.Slug()|
      && n[..13] == EnginePrefix
      && n[13..|n| - 7] == k.Slug()
      && n[|n| - 4..] == m.Key()
  {
    var n := Engine(k, m).Name();
    assert |m.Key()| == 4;
    assert n == EnginePrefix + k.Slug() + "_0_" + m.Key();
    assert n[..13] == EnginePrefix;
    assert n[13..|n| - 7] == k.Slug();
    assert n[|n| - 4..] == m.Key();
  }

  /** No scalar gauge's name starts with the engine prefix. */
  lemma ScalarNameNotEngine(g: ScalarGauge)
    ensures |g.Name()| < 13 || g.Name()[..13] != EnginePrefix
  {
    var n := g.Name();
    if |n| >= 13 {
      assert n[..13][5] == n[5] != EnginePrefix[5];
    }
  }

  /** The nine scalar gauges have different names. */
  lemma ScalarNamesDistinct(a: ScalarGauge, b: ScalarGauge)
    requires a != b
    ensures a.Name() != b.Name()
  {
  }

  /** The 24 fixed gauges and the labelled gauge are registered under 25 different names,
      so creating them all at import does not clash. */
  lemma NamesDistinct(a: GaugeId, b: GaugeId)
    ensures a.Name() == b.Name() <==> a == b
    ensures a.Name() != LabelledName
  {
    match a {
      case Scalar(s) =>
        match b {
          case Scalar(t) =>
            if s != t { ScalarNamesDistinct(s, t); }
          case Engine(k, m) =>
            EngineNameParts(k, m);
            ScalarNameNotEngine(s);
        }
      case Engine(k, m) =>
        EngineNameParts(k, m);
        match b {
          case Scalar(t) =>
            ScalarNameNotEngine(t);
          case Engine(k2, m2) =>
            EngineNameParts(k2, m2);
            if a.Name() == b.Name() {
              if k != k2 { SlugsDistinct(k, k2); }
              if m != m2 { MeasureKeysDistinct(m, m2); }
            }
        }
    }
  }

  /** Every fixed gauge exists. */
  ghost predicate Valid(reg: Registry) {
    forall g: GaugeId :: g in reg.gauges
  }

  /** The registry as the module is imported: every fixed gauge at 0.0, no label pair yet. */
  function Initial(): (reg: Registry)
    ensures Valid(reg)
    ensures forall g: GaugeId :: reg.gauges[g] == 0.0
    ensures reg.labelled == map[]
  {
    var gauges := map g | g in AllGauges :: 0.0;
    assert forall g: GaugeId :: g in gauges by {
      forall g: GaugeId ensures g in gauges {
        AllGaugesComplete(g);
      }
    }
    Registry(gauges, map[])
  }
}

=== FILE: options.dfy ===
/** Optional values that can be used with `:-`.
    `None` stands for a Python operation that raised an exception. */
module Options {

  datatype Option<+T> = None | Some(value: T) {

    predicate IsFailure() {
      None?
    }

    function PropagateFailure<U>(): Option<U>
      requires None?
    {
      None
    }

    function Extract(): T
      requires Some?
    {
      value
    }
  }
}
